=== FILE: README.md ===
# Flappy Bird: a Dafny model of the game simulation

`main.py` is a pygame Flappy Bird game. Under its drawing, sound and event
plumbing there is a small deterministic simulation over integer rectangles.
This project models that simulation as pure functions over one immutable
game record and proves properties of it:

- the pipe pairs `create_pipe` builds;
- how `move_pipes` moves and prunes the pipe list;
- `check_collision`;
- the scoring loop with its `passed_pipes` bookkeeping;
- the bird's fall and flap, and the animation counter;
- the scrolling ground offset;
- the `splash_active` / `menu_active` / `game_active` screen machine driven by
  SPACE and the four buttons;
- `reset_game` and the high score.

Modules, one per concern of the program:

- `Rects` (rects.dfy): pygame's `Rect` with its derived edges and centres, the
  setters the game uses, and `colliderect`.
- `Pipes` (pipes.dfy): `create_pipe`, `move_pipes`, the bottom/top pairing of
  the pipe list, and spawn order.
- `Kinematics` (kinematics.dfy): the bird record, gravity and the flap, the
  truncating `int(...)`, and the animation frame.
- `Collision` (collision.dfy): `check_collision`.
- `Scoring` (scoring.dfy): the scoring loop.
- `Buttons` (buttons.dfy): the hit test of `draw_button` and the four buttons.
- `Ground` (ground.dfy): the ground scroll counter.
- `GameLoop` (game.dfy): the game record, input events, and the event loop,
  per-screen update and frame of the main loop.
- `GameProperties` (game_properties.dfy): the invariant every frame keeps,
  the screen machine, and score and high-score behaviour.
- `Scenarios` (scenarios.dfy): concrete runs, including both halves of the
  finding below.

Modelling choices:

- **Rectangles.** A rectangle is `Rect(left, top, w, h)` with
  `right = left + w`, `bottom = top + h`, `centerx = left + w / 2` and
  `centery = top + h / 2`. Sizes are non-negative, so Dafny's division agrees
  with pygame's.
- **Collision.** `colliderect` is taken to be strict overlap on both axes, so
  rectangles that only share an edge do not collide. This is an assumption:
  pygame's own source is not part of this model.
  The contract of `Rects.Collides` shows that for rectangles of positive size
  this is the same as sharing a pixel.
- **Bird velocity** is kept exactly, as an integer number of tenths of a
  pixel per tick: gravity 0.4 is 4 and the flap velocity -6 is -60. Python's
  `int()` truncates toward zero, and `Kinematics.Truncate` models that
  explicitly for both signs.
- **`passed_pipes`** holds the very `Rect` objects of the pipe list, which
  `move_pipes` moves in place, so the model keeps it as a `passed` flag on
  each pipe. Python's `p not in passed_pipes` compares rectangles by value,
  and the model does the same: `Scoring.MarkedRects` is the set of the marked
  pipes' rectangles, and a bottom pipe whose rectangle is in it, or equals
  that of a bottom pipe counted earlier in the same pass, does not score.
  This matters because several spawn ticks can arrive in one frame and
  create pairs with the same rectangles (`Scoring.EqualPairsScoreOnce`).
  A pipe pruned off screen keeps its entry in the source's list, frozen with
  its right edge at or left of x = 0; every pipe the loop visits reaches
  right of x = 0 (`Pipes.MovePipes`), so those stale entries never match and
  the model drops them.
- **The main loop** as the source has it is `GameLoop.FrameAsWritten`;
  `GameLoop.Frame` is the corrected loop of the finding below. One frame
  takes the queued events and the mouse state as an `Input` and returns
  either the next game or `Exit` (for `quit()`).
  - The two timers arrive as `SpawnTick(height)` and `AnimTick` events.
  - `SpawnTick` carries the height that `random.choice` would pick; its type
    `PipeHeight` is exactly {250, 300, 350}.

## Model

| member | source | states |
|---|---|---|
| Rects.MoveCenterX | main.py:74 | setting `centerx` puts the centre at the new x and changes nothing else |
| Rects.MoveCenterY | main.py:216 | setting `centery` puts the centre at the new y and changes nothing else |
| Rects.FromCenter | main.py:55 | a rect built around a centre has that centre and the image's size |
| Rects.FromMidTop | main.py:68 | a rect built from `midtop` has that horizontal centre and top edge |
| Rects.FromMidBottom | main.py:69 | a rect built from `midbottom` has that horizontal centre and bottom edge |
| Rects.Collides | main.py:87 | for rects of positive size, the overlap test holds exactly when some pixel lies in both |
| Pipes.CreatePipe | main.py:66-70 | both pipes are 70 by 600 and centred at x = WIDTH + 100; the bottom pipe's top is the chosen height; the top pipe's bottom is that height minus 170 |
| Pipes.CreatePipeIsPair | main.py:63-70 | a created pair shares a column and leaves a gap of exactly PIPE_GAP |
| Pipes.Spawn | main.py:169-170 | `extend` keeps the old list as a prefix and appends exactly two unmarked pipes forming a pair at the spawn column, the bottom one's top at the chosen height |
| Pipes.Advance | main.py:73-74 | moving a pipe shifts it exactly 4 pixels left and keeps its size and passed mark |
| Pipes.MovePipes | main.py:72-75 | the result is no longer than the input, and every pipe in it still reaches right of x = 0 |
| Pipes.MovePipesSelects | main.py:72-75 | every returned pipe is an input pipe moved 4 left, and every input pipe still on screen once moved is returned |
| Pipes.MovePipesDistributes | main.py:72-75 | moving a concatenation is concatenating the moved parts, so the relative order of the pipes is kept |
| Pipes.MovePipesKeepsPaired | main.py:72-75 | the two pipes of a pair share a column and are pruned together, so the list stays a list of pairs |
| Pipes.MovePipesPair | main.py:73-75 | a pair sharing a column is either kept whole, both pipes moved, or dropped whole |
| Pipes.BottomsAtEvenIndices | main.py:79 | in a paired list a pipe passes the bottom-pipe test exactly when its index is even, so `pipe_list[::2]` visits the bottom pipes and nothing else |
| Pipes.SpawnKeepsPaired | main.py:169-170 | appending a created pair keeps the list paired and adds exactly two pipes |
| Pipes.SpawnKeepsOrder | main.py:169-170 | new pipes are never left of older ones, and none is right of the spawn column |
| Pipes.MovePipesKeepsOrder | main.py:72-75 | moving keeps the left edges non-decreasing along the list, below the spawn column |
| Pipes.MovePairAfter | main.py:73-75 | a pair `n` columns in moves one more column, except at column 133, where its right edge reaches 0 and it is dropped |
| Pipes.PairLifetime | main.py:72-75 | a created pair survives exactly 133 moves, one column per move, and is gone for good from the 134th on |
| Kinematics.Truncate | main.py:216 | `int()` of a velocity in tenths: the whole pixels truncated toward zero, for either sign |
| Kinematics.Fall | main.py:215-216 | a play tick adds gravity to the velocity and moves the bird down by the truncated new velocity; column, size and frame are kept |
| Kinematics.FallTimesClosedForm | main.py:215-216 | after `n` ticks without a flap the velocity has grown by `n` times gravity and the height has changed by the sum of the truncated velocities |
| Kinematics.FallingNeverRises | main.py:215-216 | once the velocity is not negative the bird never moves up again |
| Kinematics.FlapHop | main.py:161-163 | whatever the velocity before a flap, fifteen ticks later it is 0 and the bird is 36 pixels higher |
| Kinematics.NextFrame | main.py:173 | the animation index stays in {0, 1, 2} and advances by one, wrapping after 2 |
| Kinematics.NextFrameCycles | main.py:173 | three animation ticks bring the bird back to its frame |
| Ground.Scroll | main.py:251-253 | the offset moves 2 left or wraps to 0, and stays even and within (-WIDTH, 0] |
| Ground.ScrollTimesClosedForm | main.py:251-253 | from any reachable offset, the offset after `n` frames is -2 times (starting phase + n) mod 200 |
| Ground.ScrollPeriodic | main.py:251-253 | the ground repeats itself every 200 frames |
| Ground.ScrollReturns | main.py:251-253 | after any whole number of 200-frame cycles the ground is back where it started |
| Collision.HitsPipe | main.py:86-89 | the loop finds a hit exactly when the bird overlaps some pipe of the list |
| Collision.CheckCollision | main.py:85-93 | play goes on exactly when the bird overlaps no pipe, its top is below y = -50 and its bottom is above y = 500 |
| Collision.PairCollisionIffOutsideGap | main.py:85-93 | between ceiling and ground, a bird in a pair's column hits the pair exactly when it sticks out of the gap |
| Scoring.ScoreWith | main.py:228-231 | from any point of the loop on, given the rectangles already in `passed_pipes`, the rest of the pass keeps the list's length and adds one mark per point gained |
| Scoring.ScorePass | main.py:228-231 | the pass keeps the list's length, and the number of marks it adds is the number of points it gains |
| Scoring.EligibleShift | main.py:228-231 | whether a later bottom pipe scores is decided by the rest of the list once the first bottom pipe has been visited and, if it scored, appended to `passed_pipes` |
| Scoring.ScorePassMarks | main.py:228-231 | the pass moves no pipe and leaves top pipes alone; a bottom pipe ends up marked exactly when it already was or it is left of the bird with a rectangle equal neither to a marked pipe's nor to an earlier bottom pipe's |
| Scoring.LeftOfBirdIsPassed | main.py:228-231 | after a pass the rectangle of every bottom pipe left of the bird is in `passed_pipes` |
| Scoring.ScorePassIdempotent | main.py:228-231 | a second pass right after the first gains nothing and changes nothing |
| Scoring.ScorePassCountsEligible | main.py:228-231 | a pass gains exactly one point per bottom pipe left of the bird whose rectangle is not in `passed_pipes` when the loop reaches it, value-equal pipes counted once |
| Scoring.EqualPairsScoreOnce | main.py:228-231 | two unmarked pairs with the same rectangles left of the bird score one point, not two |
| Buttons.Hovered | main.py:122 | the mouse is over a button exactly when it is on one of the button's pixels other than its left column and top row |
| Buttons.Clicked | main.py:118-125 | `draw_button` returns True exactly when the left button is down over such a pixel |
| Buttons.PlayAndQuitDisjoint | main.py:205-211 | no mouse position is on both menu buttons |
| Buttons.SharedStripWithQuit | main.py:195-210 | the Continue button and the Menu button each overlap the Quit button exactly in the strip 120 < x < 280, 400 < y < 410 |
| GameLoop.Initial | main.py:42-144 | the game starts on the splash screen with the bird centred at rest in frame 0, no pipes, no points, no high score and the ground at offset 0 |
| GameLoop.Reset | main.py:135-141 | reset empties the pipe list and the passed marks, zeroes score and velocity, and recentres the bird; every other field, the high score included, is untouched |
| GameLoop.OnSpace | main.py:152-167 | SPACE moves the screen along splash, menu, play, with game over back to play; it keeps the flags exclusive; entering play from the menu or game over empties the pipes and zeroes the score; the high score and ground are kept |
| GameLoop.HandleEvent | main.py:148-174 | only closing the window exits; only SPACE changes the screen or the score; no event changes the high score or the ground |
| GameLoop.HandleEvents | main.py:148-174 | the event loop exits exactly when some event closes the window; it keeps the high score and ground; without SPACE it keeps the screen and the score |
| GameLoop.PlayTick | main.py:213-232 | the bird falls one tick; play goes on exactly when the moved bird is clear of every pipe, the ceiling and the ground; the pipes are the moved pipes, with a bottom pipe's mark added exactly when it scores, and the score rises by the number that score; the other screens' flags and the high score are kept |
| GameLoop.RecordHighScore | main.py:237-238 | the high score becomes the larger of score and high score, and nothing else changes |
| GameLoop.ScreenUpdateAsWritten | main.py:178-248 | the update exits exactly when Quit is clicked on the menu; on the game-over screen it sets the high score to the larger of score and high score, and it changes the high score nowhere else; it keeps the flags exclusive; Continue leads splash to menu, Play leads the menu to a reset run, play ends in play or game over, and Menu leads game over to the menu, keeping the score; the play screen is exactly one play tick, the splash and game-over screens change nothing but their flags and the recorded high score, and a menu frame without Quit is a reset run on Play and nothing otherwise |
| GameLoop.ScreenUpdate | main.py:178-248 | corrected update: off the play screen it is the update as written; on the play screen it is one play tick, with the high score recorded when that tick ends the run; so it never lowers the high score, and every game-over screen it leaves shows a score no higher than the high score |
| GameLoop.EndFrame | main.py:250-253 | a frame that did not quit changes only the ground offset, by one scroll step, and it stays in range |
| GameLoop.FrameAsWritten | main.py:147-258 | a frame exits exactly when an event closes the window or Quit is clicked on the menu the events leave; it never lowers the high score, and raises it only when the events leave the game-over screen showing |
| GameLoop.Frame | main.py:147-258 | corrected frame: the same exits, the high score never lowered, and every game-over screen it shows has its score recorded |
| GameProperties.InitialIsValid | main.py:42-60 | the starting state satisfies the invariant: at most one flag set, the bird in its column at its size, the frame and ground offset in range, pipes paired and in spawn order |
| GameProperties.HandleEventKeepsValid | main.py:148-174 | every event keeps the invariant of both loops, and the corrected loop's high-score clause with it |
| GameProperties.HandleEventsKeepsValid | main.py:148-174 | a frame's whole event loop keeps the invariant of both loops, and the corrected loop's high-score clause with it |
| GameProperties.PlayTickKeepsPipes | main.py:221-231 | a play tick keeps the pipe list paired and in spawn order |
| GameProperties.SameRectsKeepPaired | main.py:228-231 | pairing depends only on positions, so changing passed marks keeps a list paired |
| GameProperties.ScreenUpdateAsWrittenKeepsCore | main.py:178-248 | the update as written keeps the invariant shared by both loops |
| GameProperties.ScreenUpdateKeepsValid | main.py:178-248 | corrected loop: every screen's update establishes the full invariant, the high-score clause included |
| GameProperties.FrameAsWrittenKeepsCore | main.py:147-258 | every frame as written keeps the shared invariant: flags exclusive, bird in its column at its size, frame and ground in range, pipes paired and in spawn order |
| GameProperties.FramesAgree | main.py:213-238 | a frame whose play tick, if any, does not end the run is the same in the corrected loop and the loop as written |
| GameProperties.FrameKeepsValid | main.py:147-258 | corrected loop: every frame keeps the full invariant, so the game-over screen never shows a score above the high score |
| GameProperties.SpaceFollowsMachine | main.py:152-167 | SPACE leads splash to menu, menu to play with a reset, play to play with only the velocity set to the flap velocity, and game over to play with a reset; never two flags at once; the high score is kept |
| GameProperties.ButtonsFollowMachine | main.py:195-248 | off the play screen the corrected update is the update as written; Continue leaves the splash screen, Play starts a reset run, Quit is the only way a screen update exits, Menu leaves game over, and play ends in play or game over; never two flags at once |
| GameProperties.AnimTickKeepsBird | main.py:172-174 | in every state of either loop, the animation timer advances the frame and leaves the bird's rectangle where it was |
| GameProperties.SpawnOnlyWhilePlaying | main.py:169-170 | the spawn timer appends one created pair while playing and does nothing on any other screen |
| GameProperties.EventsInPlay | main.py:148-174 | events arriving during play keep the game in play and leave score and high score alone |
| GameProperties.ScoreNeverDecreasesInPlay | main.py:227-231 | in either loop, a frame that starts in play never lowers the score |
| GameProperties.CollisionRecordsScore | main.py:224-238 | corrected loop: the frame whose collision ends a run leaves the high score at the larger of the run's score and the old high score |
| GameProperties.GameOverScoreSurvives | main.py:236-238 | corrected loop: whatever the frame after a game over does, a restart included, the finished run's score is kept in the high score |
| GameProperties.CountedAtMostOnce | main.py:221-231 | a play tick puts every bottom pipe left of the bird into `passed_pipes`, and every pipe a later tick can count was unmarked before that move, so no pipe is counted twice |
| Scenarios.StartScenario | main.py:152-170 | from the start, SPACE opens the menu, SPACE starts a run with no pipes and no points, and the first spawn tick puts one pair on screen, already moved once; each of the three frames is the same in the loop as written |
| Scenarios.SpaceStartsRun | main.py:157-167 | SPACE on the menu or game-over screen starts a run with 0 points, no pipes, the high score kept and the bird centred, in both versions of the loop |
| Scenarios.FirstPair | main.py:169-170 | the first spawn of a run leaves the game in play with exactly one pair, one column in, in both loops |
| Scenarios.SpawnIsPairAfter | main.py:169-170 | spawning on an empty list gives the created pair at the spawn column |
| Scenarios.FirstPairTick | main.py:213-231 | the tick after the first spawn moves the pair one column, and the bird stays clear of it |
| Scenarios.HeldPressOnContinueQuits | main.py:195-211 | a press held at (200, 405) for two frames passes Continue, reaches the menu, and hits Quit, in both loops |
| Scenarios.HighScoreLostAsWritten | main.py:165-167 | as written, a run of 5 points that crashes, followed by SPACE in the next frame, ends with a high score of 0 |
| Scenarios.HighScoreKeptCorrected | main.py:237-238 | with the score recorded in the collision frame, the same inputs leave a high score of 5 |

## Left out

- Window and display setup, asset loading and scaling, fonts, `blit`,
  `display.update` and `clock.tick`: these are rendering through pygame,
  which is not part of this model. Only the image sizes are kept, as
  constants.
- The sounds (`flap_sound`, `hit_sound`, `point_sound`): side effects with
  no bearing on the state.
- `draw_pipes`, `display_score`, `rotate_bird` and the drawing half of
  `draw_button`: these only draw. The bottom-pipe test of `draw_pipes` is kept,
  as `Pipes.IsBottomPipe`.
- The pygame event queue and `set_timer`: a frame's events are given as a
  list. The 1200 ms and 200 ms periods are not modelled, so any number of
  ticks may arrive in a frame.
- `random.choice`: the chosen height is a parameter of `SpawnTick`.
- `quit()`: it is the `Exit` outcome; no process ends.
- Kinematics.Fall: velocities are exact tenths, so the model does not
  reproduce the drift of Python's float sum. After a flap, the fifth tick in
  floats has velocity -3.9999999999999987. Python truncates that to -3, where
  the exact -4.0 gives -4.
- Kinematics.FlapHop: for the reason above, the 36-pixel hop it proves is 34
  pixels in floats. The float velocity after fifteen ticks is
  7.8e-16, not 0.
- The rule that pygame's `colliderect` treats a zero-size rectangle as
  colliding with nothing: the game only tests the 40 by 30 bird against
  70 by 600 pipes, so it never applies.
- The stale entries `passed_pipes` keeps for pipes pruned off screen: they
  never equal a pipe the scoring loop visits, as said above.

## Findings

| source | as written | input that shows it | evidently intended | confidence | as-written member | corrected member |
|---|---|---|---|---|---|---|
| main.py:165-167 | The high score is only recorded by the game-over screen's update (main.py:237-238), which runs after the event loop. A SPACE press handled in the first frame after the collision restarts the run and zeroes the score before any game-over update has run. | A run with 5 points and high score 0 crashes into the ground; SPACE arrives in the very next frame. The new run starts with high score 0. | The score of every finished run reaches the high score ("beat the high score"), whatever is pressed after the crash. | medium, not executed | GameLoop.FrameAsWritten, Scenarios.HighScoreLostAsWritten | GameLoop.Frame, Scenarios.HighScoreKeptCorrected |

`GameLoop.Frame` records the high score in the frame whose collision ends the
run. `GameProperties.CollisionRecordsScore` and
`GameProperties.GameOverScoreSurvives` prove that with it no later input can
lose a finished run's score. The invariant `GameLoop.ValidCore`, score
monotonicity in play and high-score monotonicity hold for both loops; only
the corrected loop keeps `GameLoop.Valid`, whose extra clause is that the
game-over screen never shows a score above the high score.

The press and quit buttons overlap in the strip 400 < y < 410
(`Buttons.SharedStripWithQuit`), and `Scenarios.HeldPressOnContinueQuits`
shows a press held there for two frames ending the game. This is not listed
as a finding: a held press is arguably the player's doing.

=== FILE: buttons.dfy ===
/** The clickable half of `draw_button`: where the four buttons are and when
    a frame counts as a click on one of them. */
module Buttons {
  import opened Rects

  /** The mouse position and left-button state `draw_button` reads. */
  datatype Mouse = Mouse(x: int, y: int, pressed: bool)

  /** The buttons, as the (x, y, w, h) each call of `draw_button` passes. */
  const CONTINUE_BUTTON: Rect := Rect(120, 400, 160, 60)
  const PLAY_BUTTON: Rect := Rect(120, 250, 160, 60)
  const QUIT_BUTTON: Rect := Rect(120, 350, 160, 60)
  const MENU_BUTTON: Rect := Rect(120, 400, 160, 60)

  /** `x < mouse[0] < x + w and y < mouse[1] < y + h`: strictly inside, so
      the button's left column and top row of pixels do not react. */
  function Hovered(button: Rect, m: Mouse): (h: bool)
    ensures h <==> Covers(button, m.x, m.y) && m.x != button.left && m.y != button.top
  {
    button.left < m.x < button.Right() && button.top < m.y < button.Bottom()
  }

  /** `draw_button` returns True: hovered while the left button is down, on
      any frame the button is held, not only the frame it goes down. */
  function Clicked(button: Rect, m: Mouse): (c: bool)
    ensures c <==> m.pressed && Covers(button, m.x, m.y) && m.x != button.left && m.y != button.top
  {
    Hovered(button, m) && m.pressed
  }

  /** The menu's two buttons never take the same click. */
  lemma PlayAndQuitDisjoint(m: Mouse)
    ensures !(Hovered(PLAY_BUTTON, m) && Hovered(QUIT_BUTTON, m))
  {
  }

  /** The Continue (splash) and Menu (game over) buttons share a strip ten
      pixels tall with the Quit button of the main menu, and nothing else. */
  lemma SharedStripWithQuit(m: Mouse)
    ensures Hovered(CONTINUE_BUTTON, m) && Hovered(QUIT_BUTTON, m) <==>
              120 < m.x < 280 && 400 < m.y < 410
    ensures Hovered(MENU_BUTTON, m) && Hovered(QUIT_BUTTON, m) <==>
              120 < m.x < 280 && 400 < m.y < 410
  {
  }
}

=== FILE: collision.dfy ===
/** `check_collision`: whether the bird may keep playing after a tick. */
module Collision {
  import opened Rects
  import opened Pipes

  /** The bird dies once its top is at or above y = -50, or its bottom at or
      below the ground line HEIGHT - 100 (main.py:90). */
  const CEILING: int := -50
  const GROUND_Y: int := HEIGHT - 100

  /** The loop of main.py:86-89: does the bird overlap some pipe? */
  function HitsPipe(bird: Rect, pipes: seq<Pipe>): (hit: bool)
    ensures hit <==> exists i :: 0 <= i < |pipes| && Collides(bird, pipes[i].rect)
    decreases |pipes|
  {
    if |pipes| == 0 then false
    else if Collides(bird, pipes[0].rect) then true
    else
      var rest := HitsPipe(bird, pipes[1..]);
      assert rest ==> exists i :: 0 <= i < |pipes| && Collides(bird, pipes[i].rect) by {
        if rest {
          var j :| 0 <= j < |pipes[1..]| && Collides(bird, pipes[1..][j].rect);
          assert pipes[1..][j] == pipes[j + 1];
        }
      }
      rest
  }

  /** `check_collision`: True (keep playing) exactly when the bird overlaps no
      pipe and is strictly between the ceiling and the ground line. */
  function CheckCollision(bird: Rect, pipes: seq<Pipe>): (alive: bool)
    ensures alive <==>
              && (forall i :: 0 <= i < |pipes| ==> !Collides(bird, pipes[i].rect))
              && CEILING < bird.top
              && bird.Bottom() < GROUND_Y
  {
    if HitsPipe(bird, pipes) then false
    else if bird.top <= CEILING || bird.Bottom() >= GROUND_Y then false
    else true
  }

  /** The bird overlaps neither pipe of a pair in its column exactly when it
      stays inside the gap, provided it is between ceiling and ground line. */
  lemma PairCollisionIffOutsideGap(bird: Rect, bottom: Rect, top: Rect)
    requires IsPair(bottom, top)
    requires CEILING < bird.top && bird.Bottom() < GROUND_Y
    requires bird.left < bottom.Right() && bottom.left < bird.Right()
    ensures (Collides(bird, bottom) || Collides(bird, top)) <==>
              (bird.top < top.Bottom() || bottom.top < bird.Bottom())
  {
  }
}

=== FILE: game.dfy ===
/** The main loop of main.py:147-258 as a pure step function: one frame reads
    its input events, runs the update of the screen that is showing, and
    scrolls the ground. */
module GameLoop {
  import opened Rects
  import opened Pipes
  import opened Kinematics
  import opened Collision
  import opened Scoring
  import opened Buttons
  import opened Ground

  /** The source's game variables (main.py:43-64, 144) as one record. The
      three flags are kept as the source keeps them; all three false is the
      game-over screen. */
  datatype Game = Game(
    splash: bool,
    menu: bool,
    active: bool,
    bird: Bird,
    pipes: seq<Pipe>,
    score: nat,
    highScore: nat,
    groundX: int)

  /** The events the loop reacts to. The two timers of main.py:56-62 arrive
      as SpawnTick, carrying the height `random.choice` would pick, and
      AnimTick. */
  datatype Event =
    | CloseWindow
    | KeyDown(space: bool)
    | SpawnTick(height: PipeHeight)
    | AnimTick
    | OtherEvent

  /** What one frame reads: the queued events and the mouse. */
  datatype Input = Input(events: seq<Event>, mouse: Mouse)

  /** A frame either leaves the game running or ends the process (`quit()`). */
  datatype Outcome = Running(game: Game) | Exit

  datatype Screen = SplashScreen | MenuScreen | PlayScreen | GameOverScreen

  /** The screen the if/elif chain of main.py:178-236 picks. */
  function ScreenOf(g: Game): Screen
  {
    if g.splash then SplashScreen
    else if g.menu then MenuScreen
    else if g.active then PlayScreen
    else GameOverScreen
  }

  /** At most one of the three flags is set. */
  predicate FlagsExclusive(g: Game)
  {
    !(g.splash && g.menu) && !(g.splash && g.active) && !(g.menu && g.active)
  }

  /** What every reachable game satisfies, in the loop as written and in
      the corrected loop alike. */
  ghost predicate ValidCore(g: Game)
  {
    && FlagsExclusive(g)
    && g.bird.rect.left == BIRD_X - BIRD_W / 2
    && g.bird.rect.w == BIRD_W && g.bird.rect.h == BIRD_H
    && 0 <= g.bird.frame < FRAME_COUNT
    && Ground.InRange(g.groundX)
    && WellPaired(g.pipes)
    && InSpawnOrder(g.pipes)
  }

  /** The invariant of the corrected loop: on top of ValidCore, the
      game-over screen never shows a score above the high score. */
  ghost predicate Valid(g: Game)
  {
    ValidCore(g) && (ScreenOf(g) == GameOverScreen ==> g.score <= g.highScore)
  }

  /** The state before the first frame: the splash screen, the bird centred,
      no pipes, no points. */
  function Initial(): (g: Game)
    ensures ScreenOf(g) == SplashScreen
    ensures g.bird.rect.CenterX() == BIRD_X && g.bird.rect.CenterY() == BIRD_Y
    ensures g.pipes == [] && g.score == 0 && g.highScore == 0
    ensures g.bird.velocity == 0 && g.bird.frame == 0 && g.groundX == 0
  {
    Game(true, false, false, Bird(FromCenter(BIRD_W, BIRD_H, BIRD_X, BIRD_Y), 0, 0), [], 0, 0, 0)
  }

  /** `reset_game` (main.py:135-141). The pipe list and `passed_pipes` are
      cleared together, since the passed marks live on the pipes. */
  function Reset(g: Game): (r: Game)
    ensures r.pipes == [] && r.score == 0 && r.bird.velocity == 0
    ensures r.bird.rect.CenterX() == BIRD_X && r.bird.rect.CenterY() == BIRD_Y
    ensures r.bird.rect.w == g.bird.rect.w && r.bird.rect.h == g.bird.rect.h
    ensures r.bird.frame == g.bird.frame
    ensures r.(pipes := g.pipes, score := g.score, bird := g.bird) == g
  {
    var rect := FromCenter(g.bird.rect.w, g.bird.rect.h, BIRD_X, BIRD_Y);
    g.(pipes := [], bird := g.bird.(rect := rect, velocity := 0), score := 0)
  }

  /** Where SPACE leads from each screen. */
  function SpaceTarget(s: Screen): Screen
  {
    match s
    case SplashScreen => MenuScreen
    case MenuScreen => PlayScreen
    case PlayScreen => PlayScreen
    case GameOverScreen => PlayScreen
  }

  /** SPACE (main.py:153-167): splash to menu, menu to play, a flap while
      playing, and a restart after game over. */
  function OnSpace(g: Game): (r: Game)
    ensures ScreenOf(r) == SpaceTarget(ScreenOf(g))
    ensures FlagsExclusive(g) ==> FlagsExclusive(r)
    ensures ScreenOf(g) in {MenuScreen, GameOverScreen} ==> r.pipes == [] && r.score == 0
    ensures ScreenOf(g) in {SplashScreen, PlayScreen} ==> r.pipes == g.pipes && r.score == g.score
    ensures r.highScore == g.highScore && r.groundX == g.groundX
  {
    if g.splash then g.(splash := false, menu := true)
    else if g.menu then Reset(g.(menu := false, active := true))
    // `bird_movement = 0` then `bird_movement -= 6`: the flap overrides
    else if g.active then g.(bird := g.bird.(velocity := FLAP_VELOCITY))
    else Reset(g.(active := true))
  }

  /** One pass of the event loop body (main.py:148-174): only closing the
      window ends the process, only SPACE changes the screen or the score,
      and nothing touches the high score or the ground. */
  function HandleEvent(g: Game, e: Event): (r: Outcome)
    ensures r.Exit? <==> e == CloseWindow
    ensures r.Running? ==> r.game.highScore == g.highScore && r.game.groundX == g.groundX
    ensures r.Running? && e != KeyDown(true) ==>
              ScreenOf(r.game) == ScreenOf(g) && r.game.score == g.score
    ensures r.Running? && e == KeyDown(true) ==> ScreenOf(r.game) == SpaceTarget(ScreenOf(g))
  {
    match e
    case CloseWindow => Exit
    case KeyDown(space) => Running(if space then OnSpace(g) else g)
    case SpawnTick(height) => Running(if g.active then g.(pipes := Spawn(g.pipes, height)) else g)
    case AnimTick =>
      // `bird_animation` re-centres a rect of the new image's size at the
      // bird's column and current height
      var rect := FromCenter(BIRD_W, BIRD_H, BIRD_X, g.bird.rect.CenterY());
      Running(g.(bird := g.bird.(frame := NextFrame(g.bird.frame), rect := rect)))
    case OtherEvent => Running(g)
  }

  /** Some event of the list closes the window. */
  predicate Closes(events: seq<Event>)
  {
    exists i :: 0 <= i < |events| && events[i] == CloseWindow
  }

  /** The whole event loop of a frame; `quit()` stops it at once, so the
      frame ends the process exactly when some event closes the window. */
  function HandleEvents(g: Game, events: seq<Event>): (r: Outcome)
    ensures r.Exit? <==> Closes(events)
    ensures r.Running? ==> r.game.highScore == g.highScore && r.game.groundX == g.groundX
    ensures r.Running? && (forall i :: 0 <= i < |events| ==> events[i] != KeyDown(true)) ==>
              ScreenOf(r.game) == ScreenOf(g) && r.game.score == g.score
    decreases |events|
  {
    if |events| == 0 then Running(g)
    else
      assert forall i :: 0 <= i < |events[1..]| ==> events[1..][i] == events[i + 1];
      assert Closes(events) <==> events[0] == CloseWindow || Closes(events[1..]);
      match HandleEvent(g, events[0])
      case Exit => Exit
      case Running(g') => HandleEvents(g', events[1..])
  }

  /** The play screen's update (main.py:213-232): the bird falls, the pipes
      move, the collision test decides whether play goes on, and the scoring
      loop runs in the same frame either way. */
  function PlayTick(g: Game): (r: Game)
    ensures r.bird == Fall(g.bird)
    ensures r.active <==>
              && (forall i :: 0 <= i < |r.pipes| ==> !Collides(r.bird.rect, r.pipes[i].rect))
              && CEILING < r.bird.rect.top
              && r.bird.rect.Bottom() < GROUND_Y
    ensures r.score - g.score ==
              CountEligible(MovePipes(g.pipes), r.bird.rect.CenterX(), |MovePipes(g.pipes)|)
    ensures var moved := MovePipes(g.pipes);
      && |r.pipes| == |moved|
      && (forall i :: 0 <= i < |moved| ==> r.pipes[i].rect == moved[i].rect)
      && (forall i :: 0 <= i < |moved| && i % 2 == 1 ==> r.pipes[i] == moved[i])
      && (forall i :: 0 <= i < |moved| && i % 2 == 0 ==>
            r.pipes[i].passed == (moved[i].passed || Eligible(moved, r.bird.rect.CenterX(), i)))
    ensures r.splash == g.splash && r.menu == g.menu
    ensures r.highScore == g.highScore && r.groundX == g.groundX
  {
    var bird := Fall(g.bird);
    var moved := MovePipes(g.pipes);
    var alive := CheckCollision(bird.rect, moved);
    var scored := ScorePass(moved, bird.rect.CenterX());
    ScorePassCountsEligible(moved, bird.rect.CenterX());
    ScorePassMarks(moved, bird.rect.CenterX());
    g.(bird := bird, pipes := scored.pipes, active := alive, score := g.score + scored.gained)
  }

  /** `if score > high_score: high_score = score` (main.py:237-238). */
  function RecordHighScore(g: Game): (r: Game)
    ensures r.highScore >= g.score && r.highScore >= g.highScore
    ensures r.highScore == g.score || r.highScore == g.highScore
    ensures r.(highScore := g.highScore) == g
  {
    if g.score > g.highScore then g.(highScore := g.score) else g
  }

  /** The per-screen update of main.py:178-248, exactly as the source has
      it: the high score is recorded by the game-over screen only. */
  function ScreenUpdateAsWritten(g: Game, m: Mouse): (r: Outcome)
    ensures r.Exit? <==> ScreenOf(g) == MenuScreen && Clicked(QUIT_BUTTON, m)
    ensures r.Running? ==> r.game.groundX == g.groundX
    ensures r.Running? && ScreenOf(g) != GameOverScreen ==> r.game.highScore == g.highScore
    ensures r.Running? && ScreenOf(g) == GameOverScreen ==>
              r.game.highScore == (if g.score > g.highScore then g.score else g.highScore)
    ensures r.Running? && FlagsExclusive(g) ==> FlagsExclusive(r.game)
    ensures r.Running? && ScreenOf(g) == SplashScreen ==>
              ScreenOf(r.game) == (if Clicked(CONTINUE_BUTTON, m) then MenuScreen else SplashScreen)
    ensures r.Running? && ScreenOf(g) == MenuScreen ==>
              ScreenOf(r.game) == (if Clicked(PLAY_BUTTON, m) then PlayScreen else MenuScreen)
    ensures r.Running? && ScreenOf(g) == MenuScreen && Clicked(PLAY_BUTTON, m) ==>
              r.game.score == 0 && r.game.pipes == []
    ensures r.Running? && ScreenOf(g) == PlayScreen ==> ScreenOf(r.game) in {PlayScreen, GameOverScreen}
    ensures r.Running? && ScreenOf(g) == GameOverScreen ==>
              ScreenOf(r.game) == (if Clicked(MENU_BUTTON, m) then MenuScreen else GameOverScreen)
              && r.game.score == g.score && r.game.pipes == g.pipes
    // what each screen leaves alone: the play screen is exactly a play tick,
    // the other screens change only their flags, the menu's Play button
    // resets the run, and the game-over screen also records the high score
    ensures ScreenOf(g) == PlayScreen ==> r == Running(PlayTick(g))
    ensures r.Running? && ScreenOf(g) == SplashScreen ==>
              r.game.(splash := g.splash, menu := g.menu) == g
    ensures r.Running? && ScreenOf(g) == MenuScreen ==>
              r.game == (if Clicked(PLAY_BUTTON, m) then Reset(g.(menu := false, active := true)) else g)
    ensures r.Running? && ScreenOf(g) == GameOverScreen ==>
              r.game.(highScore := g.highScore, menu := g.menu) == g
  {
    match ScreenOf(g)
    case SplashScreen =>
      Running(if Clicked(CONTINUE_BUTTON, m) then g.(splash := false, menu := true) else g)
    case MenuScreen =>
      var g' := if Clicked(PLAY_BUTTON, m) then Reset(g.(menu := false, active := true)) else g;
      if Clicked(QUIT_BUTTON, m) then Exit else Running(g')
    case PlayScreen =>
      Running(PlayTick(g))
    case GameOverScreen =>
      var g' := RecordHighScore(g);
      Running(if Clicked(MENU_BUTTON, m) then g'.(menu := true, active := false) else g')
  }

  /** The per-screen update with the high score also recorded in the frame
      whose collision ends the run, so that a restart in the next frame
      cannot lose it: every game-over screen it leaves shows a recorded
      score. */
  function ScreenUpdate(g: Game, m: Mouse): (r: Outcome)
    ensures r.Exit? <==> ScreenOf(g) == MenuScreen && Clicked(QUIT_BUTTON, m)
    ensures r.Running? ==> r.game.groundX == g.groundX && r.game.highScore >= g.highScore
    ensures r.Running? && ScreenOf(r.game) == GameOverScreen ==> r.game.score <= r.game.highScore
    ensures ScreenOf(g) != PlayScreen ==> r == ScreenUpdateAsWritten(g, m)
    ensures ScreenOf(g) == PlayScreen ==>
              r == Running(if PlayTick(g).active then PlayTick(g) else RecordHighScore(PlayTick(g)))
  {
    if ScreenOf(g) == PlayScreen then
      var g' := PlayTick(g);
      Running(if g'.active then g' else RecordHighScore(g'))
    else ScreenUpdateAsWritten(g, m)
  }

  /** The end of every frame that did not quit (main.py:251-253): only the
      ground moves. */
  function EndFrame(o: Outcome): (r: Outcome)
    ensures r.Exit? <==> o.Exit?
    ensures r.Running? ==> r.game.(groundX := o.game.groundX) == o.game
    ensures r.Running? ==> r.game.groundX == Scroll(o.game.groundX)
    ensures r.Running? && InRange(o.game.groundX) ==> InRange(r.game.groundX)
  {
    match o
    case Exit => Exit
    case Running(g) => Running(g.(groundX := Scroll(g.groundX)))
  }

  /** One iteration of the main loop: it ends the process when an event
      closes the window or the menu's Quit button is clicked, never lowers
      the high score, and every game-over screen it shows has its score
      recorded. */
  function Frame(g: Game, input: Input): (r: Outcome)
    ensures r.Exit? <==>
              || Closes(input.events)
              || (&& HandleEvents(g, input.events).Running?
                  && ScreenOf(HandleEvents(g, input.events).game) == MenuScreen
                  && Clicked(QUIT_BUTTON, input.mouse))
    ensures r.Running? ==> r.game.highScore >= g.highScore
    ensures r.Running? && ScreenOf(r.game) == GameOverScreen ==> r.game.score <= r.game.highScore
  {
    match HandleEvents(g, input.events)
    case Exit => Exit
    case Running(g') => EndFrame(ScreenUpdate(g', input.mouse))
  }

  /** One iteration of the main loop as the source has it: the same exits,
      the high score never lowered, but raised only when the frame's update
      runs on the game-over screen. */
  function FrameAsWritten(g: Game, input: Input): (r: Outcome)
    ensures r.Exit? <==>
              || Closes(input.events)
              || (&& HandleEvents(g, input.events).Running?
                  && ScreenOf(HandleEvents(g, input.events).game) == MenuScreen
                  && Clicked(QUIT_BUTTON, input.mouse))
    ensures r.Running? ==> r.game.highScore >= g.highScore
    ensures r.Running? && ScreenOf(HandleEvents(g, input.events).game) != GameOverScreen ==>
              r.game.highScore == g.highScore
  {
    match HandleEvents(g, input.events)
    case Exit => Exit
    case Running(g') => EndFrame(ScreenUpdateAsWritten(g', input.mouse))
  }
}

=== FILE: game_properties.dfy ===
/** Properties of the main loop: the invariant every frame keeps, the screen
    machine the flags implement, score and high-score behaviour, and a few
    concrete runs. */
module GameProperties {
  import opened Rects
  import opened Pipes
  import opened Kinematics
  import opened Scoring
  import opened Buttons
  import opened GameLoop

  // ---------------------------------------------------------------------
  // The invariant
  // ---------------------------------------------------------------------

  /** The game starts out satisfying the invariant. */
  lemma InitialIsValid(g: Game)
    requires g == Initial()
    ensures Valid(g)
  {
  }

  /** Every event keeps ValidCore, and the corrected invariant with it: no
      event leads to the game-over screen or changes a score there. */
  lemma HandleEventKeepsValid(g: Game, e: Event)
    requires ValidCore(g)
    ensures HandleEvent(g, e).Running? ==> ValidCore(HandleEvent(g, e).game)
    ensures HandleEvent(g, e).Running? && Valid(g) ==> Valid(HandleEvent(g, e).game)
  {
    match e
    case SpawnTick(height) =>
      if g.active {
        SpawnKeepsPaired(g.pipes, height);
        SpawnKeepsOrder(g.pipes, height);
      }
    case _ =>
  }

  lemma {:induction false} HandleEventsKeepsValid(g: Game, events: seq<Event>)
    requires ValidCore(g)
    ensures HandleEvents(g, events).Running? ==> ValidCore(HandleEvents(g, events).game)
    ensures HandleEvents(g, events).Running? && Valid(g) ==> Valid(HandleEvents(g, events).game)
    decreases |events|
  {
    if |events| > 0 {
      HandleEventKeepsValid(g, events[0]);
      if HandleEvent(g, events[0]).Running? {
        HandleEventsKeepsValid(HandleEvent(g, events[0]).game, events[1..]);
      }
    }
  }

  /** The pipe part of the invariant survives a play tick: moving keeps the
      pairs and the order, and scoring only touches the passed marks. */
  lemma PlayTickKeepsPipes(g: Game)
    requires WellPaired(g.pipes) && InSpawnOrder(g.pipes)
    ensures WellPaired(PlayTick(g).pipes) && InSpawnOrder(PlayTick(g).pipes)
  {
    MovePipesKeepsPaired(g.pipes);
    MovePipesKeepsOrder(g.pipes);
    SameRectsKeepPaired(MovePipes(g.pipes), PlayTick(g).pipes);
  }

  /** Pairing depends on the rectangles only, not on the passed marks. */
  lemma {:induction false} SameRectsKeepPaired(a: seq<Pipe>, b: seq<Pipe>)
    requires |a| == |b|
    requires forall i :: 0 <= i < |a| ==> a[i].rect == b[i].rect
    requires WellPaired(a)
    ensures WellPaired(b)
    decreases |a|
  {
    if |a| > 0 {
      SameRectsKeepPaired(a[2..], b[2..]);
    }
  }

  /** The screen updates of both loops keep ValidCore. */
  lemma ScreenUpdateAsWrittenKeepsCore(g: Game, m: Mouse)
    requires ValidCore(g)
    ensures ScreenUpdateAsWritten(g, m).Running? ==> ValidCore(ScreenUpdateAsWritten(g, m).game)
  {
    if ScreenOf(g) == PlayScreen {
      PlayTickKeepsPipes(g);
    }
  }

  /** The corrected update turns ValidCore into the full invariant: the
      collision frame records the score. */
  lemma ScreenUpdateKeepsValid(g: Game, m: Mouse)
    requires ValidCore(g)
    ensures ScreenUpdate(g, m).Running? ==> Valid(ScreenUpdate(g, m).game)
  {
    ScreenUpdateAsWrittenKeepsCore(g, m);
    if ScreenOf(g) == PlayScreen {
      PlayTickKeepsPipes(g);
    }
  }

  /** Every frame of the loop as written keeps ValidCore. */
  lemma FrameAsWrittenKeepsCore(g: Game, input: Input)
    requires ValidCore(g)
    ensures FrameAsWritten(g, input).Running? ==> ValidCore(FrameAsWritten(g, input).game)
  {
    HandleEventsKeepsValid(g, input.events);
    if HandleEvents(g, input.events).Running? {
      ScreenUpdateAsWrittenKeepsCore(HandleEvents(g, input.events).game, input.mouse);
    }
  }

  /** Every frame of the corrected loop keeps the full invariant, so every
      game it reaches satisfies it. */
  lemma FrameKeepsValid(g: Game, input: Input)
    requires Valid(g)
    ensures Frame(g, input).Running? ==> Valid(Frame(g, input).game)
  {
    HandleEventsKeepsValid(g, input.events);
    if HandleEvents(g, input.events).Running? {
      ScreenUpdateKeepsValid(HandleEvents(g, input.events).game, input.mouse);
    }
  }

  /** The two loops differ only in a frame whose play tick ends the run:
      every other frame of the corrected loop is a frame of the source's
      loop, so runs that never crash are the same in both. */
  lemma FramesAgree(g: Game, input: Input)
    requires HandleEvents(g, input.events).Running? ==>
               var g' := HandleEvents(g, input.events).game;
               ScreenOf(g') != PlayScreen || PlayTick(g').active
    ensures Frame(g, input) == FrameAsWritten(g, input)
  {
  }

  // ---------------------------------------------------------------------
  // The screen machine
  // ---------------------------------------------------------------------

  /** SPACE moves the flags along the screen machine and never sets two of
      them: entering play from the menu or the game-over screen resets the
      game, a flap while playing only sets the velocity, and leaving the
      splash screen changes nothing but the flags. */
  lemma SpaceFollowsMachine(g: Game)
    requires FlagsExclusive(g)
    ensures HandleEvent(g, KeyDown(true)).Running?
    ensures var g' := HandleEvent(g, KeyDown(true)).game;
      && FlagsExclusive(g')
      && ScreenOf(g') == SpaceTarget(ScreenOf(g))
      && (ScreenOf(g) == SplashScreen ==> g' == g.(splash := false, menu := true))
      && (ScreenOf(g) == PlayScreen ==> g' == g.(bird := g.bird.(velocity := FLAP_VELOCITY)))
      && (ScreenOf(g) in {MenuScreen, GameOverScreen} ==>
            g'.pipes == [] && g'.score == 0 && g'.bird.velocity == 0 &&
            g'.bird.rect.CenterY() == BIRD_Y && g'.highScore == g.highScore)
  {
  }

  /** The buttons move the flags along the screen machine too: Continue
      leaves the splash screen, Play starts a reset game, Quit ends the
      process, Menu leaves the game-over screen; the play screen has no
      buttons and ends in play or game over. Off the play screen the
      corrected update is the update as written, so the same transitions
      hold for the source's loop (they are also in the contract of
      ScreenUpdateAsWritten). */
  lemma ButtonsFollowMachine(g: Game, m: Mouse)
    requires FlagsExclusive(g)
    ensures ScreenOf(g) != PlayScreen ==> ScreenUpdate(g, m) == ScreenUpdateAsWritten(g, m)
    ensures ScreenUpdate(g, m).Exit? <==> ScreenOf(g) == MenuScreen && Clicked(QUIT_BUTTON, m)
    ensures ScreenUpdate(g, m).Running? ==>
      var g' := ScreenUpdate(g, m).game;
      && FlagsExclusive(g')
      && (ScreenOf(g) == SplashScreen ==>
            ScreenOf(g') == (if Clicked(CONTINUE_BUTTON, m) then MenuScreen else SplashScreen))
      && (ScreenOf(g) == MenuScreen ==>
            ScreenOf(g') == (if Clicked(PLAY_BUTTON, m) then PlayScreen else MenuScreen))
      && (ScreenOf(g) == MenuScreen && Clicked(PLAY_BUTTON, m) ==> g'.score == 0 && g'.pipes == [])
      && (ScreenOf(g) == PlayScreen ==> ScreenOf(g') in {PlayScreen, GameOverScreen})
      && (ScreenOf(g) == GameOverScreen ==>
            ScreenOf(g') == (if Clicked(MENU_BUTTON, m) then MenuScreen else GameOverScreen))
  {
  }

  /** The animation timer only advances the frame: re-centring the bird's
      rectangle leaves it where it was. */
  lemma AnimTickKeepsBird(g: Game)
    requires ValidCore(g)
    ensures HandleEvent(g, AnimTick) == Running(g.(bird := g.bird.(frame := NextFrame(g.bird.frame))))
  {
  }

  /** The spawn timer adds one created pair at the end of the list while
      playing, and nothing on any other screen. */
  lemma SpawnOnlyWhilePlaying(g: Game, height: PipeHeight)
    requires FlagsExclusive(g)
    ensures var g' := HandleEvent(g, SpawnTick(height)).game;
      && (ScreenOf(g) == PlayScreen ==>
            g'.pipes == g.pipes + [Pipe(CreatePipe(height).bottom, false), Pipe(CreatePipe(height).top, false)])
      && (ScreenOf(g) != PlayScreen ==> g' == g)
  {
  }

  // ---------------------------------------------------------------------
  // Score and high score
  // ---------------------------------------------------------------------

  /** The events of a frame that starts in play keep it in play and leave
      the score and high score alone. */
  lemma {:induction false} EventsInPlay(g: Game, events: seq<Event>)
    requires FlagsExclusive(g) && ScreenOf(g) == PlayScreen
    ensures HandleEvents(g, events).Running? ==>
      var g' := HandleEvents(g, events).game;
      FlagsExclusive(g') && ScreenOf(g') == PlayScreen &&
      g'.score == g.score && g'.highScore == g.highScore
    decreases |events|
  {
    if |events| > 0 && HandleEvent(g, events[0]).Running? {
      EventsInPlay(HandleEvent(g, events[0]).game, events[1..]);
    }
  }

  /** While playing the score never goes down, in either loop. */
  lemma ScoreNeverDecreasesInPlay(g: Game, input: Input)
    requires FlagsExclusive(g) && ScreenOf(g) == PlayScreen
    ensures Frame(g, input).Running? ==> Frame(g, input).game.score >= g.score
    ensures FrameAsWritten(g, input).Running? ==> FrameAsWritten(g, input).game.score >= g.score
  {
    EventsInPlay(g, input.events);
  }

  /** The frame whose collision ends a run records its score at once. */
  lemma CollisionRecordsScore(g: Game, input: Input)
    requires FlagsExclusive(g) && ScreenOf(g) == PlayScreen
    requires Frame(g, input).Running?
    requires ScreenOf(Frame(g, input).game) == GameOverScreen
    ensures var g' := Frame(g, input).game;
      g'.highScore == (if g'.score > g.highScore then g'.score else g.highScore)
  {
    EventsInPlay(g, input.events);
  }

  /** Whatever the frame after a game over does, a restart included, the
      score of the finished run is in the high score. */
  lemma GameOverScoreSurvives(g: Game, input: Input)
    requires Valid(g) && ScreenOf(g) == GameOverScreen
    ensures Frame(g, input).Running? ==> Frame(g, input).game.highScore >= g.score
  {
  }

  /** A bottom pipe is counted at most once: every pipe the scoring loop of
      the next tick can count is, one move earlier, a pipe of this tick's
      list that this tick left unmarked; this tick marks every bottom pipe
      left of the bird, and MovePipes keeps the marks. */
  lemma CountedAtMostOnce(g: Game, birdX: int)
    ensures var g1 := PlayTick(g);
      var moved := MovePipes(g1.pipes);
      forall i :: 0 <= i < |moved| && Eligible(moved, birdX, i) ==>
        Retreat(moved[i]) in g1.pipes && !Retreat(moved[i]).passed
    ensures var g1 := PlayTick(g);
      forall i :: 0 <= i < |g1.pipes| && i % 2 == 0 && g1.pipes[i].rect.CenterX() < g1.bird.rect.CenterX() ==>
        g1.pipes[i].rect in MarkedRects(g1.pipes)
  {
    var g1 := PlayTick(g);
    var moved := MovePipes(g1.pipes);
    MovePipesSelects(g1.pipes);
    forall i | 0 <= i < |moved| && Eligible(moved, birdX, i)
      ensures Retreat(moved[i]) in g1.pipes && !Retreat(moved[i]).passed
    {
      assert moved[i] in moved;
    }
    var before := MovePipes(g.pipes);
    var x := g1.bird.rect.CenterX();
    forall i | 0 <= i < |g1.pipes| && i % 2 == 0 && g1.pipes[i].rect.CenterX() < x
      ensures g1.pipes[i].rect in MarkedRects(g1.pipes)
    {
      LeftOfBirdIsPassed(before, x, i);
      ScorePassMarks(before, x);
    }
  }
}

=== FILE: ground.dfy ===
/** The scrolling ground strip: an offset that moves 2 pixels left every
    frame and jumps back once a whole window width has scrolled by. */
module Ground {
  import opened Rects

  const GROUND_STEP: int := 2

  /** The offsets the ground can show: even, and within one window width. */
  predicate InRange(x: int)
  {
    -WIDTH < x <= 0 && x % 2 == 0
  }

  /** `ground_x -= 2`, then back to 0 on reaching -WIDTH (main.py:251-253). */
  function Scroll(x: int): (x': int)
    ensures InRange(x) ==> InRange(x')
    ensures x' == 0 || x' == x - GROUND_STEP
  {
    var moved := x - GROUND_STEP;
    if moved <= -WIDTH then 0 else moved
  }

  /** The offset after `n` frames. */
  function ScrollTimes(x: int, n: nat): int
    decreases n
  {
    if n == 0 then x else Scroll(ScrollTimes(x, n - 1))
  }

  /** From any reachable offset the ground advances one step of a 200-frame
      cycle per frame: the offset after `n` frames is determined by the
      phase (n + its starting phase) mod 200. */
  lemma {:induction false} ScrollTimesClosedForm(x: int, n: nat)
    requires InRange(x)
    ensures ScrollTimes(x, n) == -GROUND_STEP * ((-x / 2 + n) % 200)
    decreases n
  {
    if n > 0 {
      ScrollTimesClosedForm(x, n - 1);
      var k := -x / 2 + n - 1;
      var p := k % 200;
      assert ScrollTimes(x, n - 1) == -2 * p;
      assert k == 200 * (k / 200) + p;
      if p < 199 {
        assert Scroll(-2 * p) == -2 * (p + 1);
        assert k + 1 == 200 * (k / 200) + (p + 1);
        assert (k + 1) % 200 == p + 1;
      } else {
        assert Scroll(-2 * p) == 0;
        assert k + 1 == 200 * (k / 200 + 1);
        assert (k + 1) % 200 == 0;
      }
    }
  }

  /** The ground repeats itself every 200 frames. */
  lemma ScrollPeriodic(x: int, n: nat)
    requires InRange(x)
    ensures ScrollTimes(x, n + 200) == ScrollTimes(x, n)
  {
    ScrollTimesClosedForm(x, n);
    ScrollTimesClosedForm(x, n + 200);
    PhaseShift(-x / 2 + n);
  }

  /** Adding a whole cycle leaves the phase unchanged. */
  lemma PhaseShift(c: int)
    ensures (c + 200) % 200 == c % 200
  {
    assert c + 200 == 200 * (c / 200 + 1) + c % 200;
  }

  /** From any reachable offset the ground is back where it started after
      every whole number of 200-frame cycles. */
  lemma {:induction false} ScrollReturns(x: int, k: nat)
    requires InRange(x)
    ensures ScrollTimes(x, 200 * k) == x
    decreases k
  {
    if k > 0 {
      ScrollReturns(x, k - 1);
      ScrollPeriodic(x, 200 * (k - 1));
      assert 200 * (k - 1) + 200 == 200 * k;
    }
  }
}

=== FILE: kinematics.dfy ===
/** The bird: its rectangle, its vertical velocity and its animation frame,
    with the play-tick fall, the flap and the frame counter. */
module Kinematics {
  import opened Rects

  /** Velocities are kept exactly, in tenths of a pixel per tick: gravity
      0.4 (main.py:43) is 4 and the flap velocity -6 (main.py:162-163) is -60. */
  const GRAVITY: int := 4
  const FLAP_VELOCITY: int := -60

  /** The bird images are scaled to 40 by 30 (main.py:27) and the bird is
      centred at (WIDTH // 4, HEIGHT // 2) (main.py:55). */
  const BIRD_W: nat := 40
  const BIRD_H: nat := 30
  const BIRD_X: int := WIDTH / 4
  const BIRD_Y: int := HEIGHT / 2

  /** Number of bird images the animation cycles through (main.py:21-25). */
  const FRAME_COUNT: int := 3

  /** `bird_rect`, `bird_movement` (in tenths) and `bird_index`. */
  datatype Bird = Bird(rect: Rect, velocity: int, frame: int)

  /** Python's `int(velocity)` for a velocity given in tenths: whole pixels,
      truncated toward zero. */
  function Truncate(tenths: int): (px: int)
    ensures tenths >= 0 ==> 0 <= 10 * px <= tenths < 10 * px + 10
    ensures tenths < 0 ==> 10 * px - 10 < tenths <= 10 * px <= 0
  {
    if tenths >= 0 then tenths / 10 else -((-tenths) / 10)
  }

  /** One play tick of the bird (main.py:215-216): gravity first, then the
      centre moves by the truncated new velocity. */
  function Fall(b: Bird): (b': Bird)
    ensures b'.velocity - b.velocity == GRAVITY
    ensures b'.rect.top - b.rect.top == Truncate(b'.velocity)
    ensures b'.rect.left == b.rect.left && b'.rect.w == b.rect.w && b'.rect.h == b.rect.h
    ensures b'.frame == b.frame
  {
    var v := b.velocity + GRAVITY;
    b.(rect := MoveCenterY(b.rect, b.rect.CenterY() + Truncate(v)), velocity := v)
  }

  /** `n` play ticks without a flap. */
  function FallTimes(b: Bird, n: nat): Bird
    decreases n
  {
    if n == 0 then b else Fall(FallTimes(b, n - 1))
  }

  /** Total displacement, in whole pixels, of `n` ticks from velocity `v`. */
  function Drop(v: int, n: nat): int
    decreases n
  {
    if n == 0 then 0 else Drop(v, n - 1) + Truncate(v + GRAVITY * n)
  }

  /** Without flaps the velocity grows by gravity every tick, the bird stays
      in its column, and its height changes by the sum of the truncated
      velocities. */
  lemma {:induction false} FallTimesClosedForm(b: Bird, n: nat)
    ensures FallTimes(b, n).velocity == b.velocity + GRAVITY * n
    ensures FallTimes(b, n).rect.top == b.rect.top + Drop(b.velocity, n)
    ensures FallTimes(b, n).rect.left == b.rect.left
    ensures FallTimes(b, n).rect.w == b.rect.w && FallTimes(b, n).rect.h == b.rect.h
    decreases n
  {
    if n > 0 {
      FallTimesClosedForm(b, n - 1);
    }
  }

  /** Once the velocity is not negative the bird never rises again. */
  lemma {:induction false} FallingNeverRises(b: Bird, n: nat)
    requires b.velocity >= 0
    ensures FallTimes(b, n).rect.top >= b.rect.top
    ensures FallTimes(b, n).velocity >= 0
    decreases n
  {
    if n > 0 {
      FallingNeverRises(b, n - 1);
    }
  }

  /** A flap gives a fixed hop whatever the bird was doing: fifteen ticks
      after it the velocity is back to 0 and the bird is 36 pixels higher. */
  lemma FlapHop(b: Bird)
    ensures FallTimes(b.(velocity := FLAP_VELOCITY), 15).velocity == 0
    ensures FallTimes(b.(velocity := FLAP_VELOCITY), 15).rect.top == b.rect.top - 36
  {
    FallTimesClosedForm(b.(velocity := FLAP_VELOCITY), 15);
    FlapRise();
    FlapSettle();
  }

  /** The next seven rise 6 more pixels, the last three of them none. */
  lemma FlapSettle()
    ensures Drop(FLAP_VELOCITY, 15) == -36
  {
    FlapRise();
    assert Drop(FLAP_VELOCITY, 9) == -32;
    assert Drop(FLAP_VELOCITY, 10) == -34;
    assert Drop(FLAP_VELOCITY, 11) == -35;
    assert Drop(FLAP_VELOCITY, 12) == -36;
    assert Drop(FLAP_VELOCITY, 13) == -36;
    assert Drop(FLAP_VELOCITY, 14) == -36;
  }

  /** The first eight ticks after a flap rise 30 pixels. */
  lemma FlapRise()
    ensures Drop(FLAP_VELOCITY, 8) == -30
  {
    assert Drop(FLAP_VELOCITY, 1) == -5;
    assert Drop(FLAP_VELOCITY, 2) == -10;
    assert Drop(FLAP_VELOCITY, 3) == -14;
    assert Drop(FLAP_VELOCITY, 4) == -18;
    assert Drop(FLAP_VELOCITY, 5) == -22;
    assert Drop(FLAP_VELOCITY, 6) == -25;
    assert Drop(FLAP_VELOCITY, 7) == -28;
  }

  /** `bird_index = (bird_index + 1) % len(BIRD_FRAMES)` (main.py:173). */
  function NextFrame(i: int): (j: int)
    ensures 0 <= j < FRAME_COUNT
    ensures 0 <= i < FRAME_COUNT - 1 ==> j == i + 1
    ensures i == FRAME_COUNT - 1 ==> j == 0
  {
    (i + 1) % FRAME_COUNT
  }

  /** The animation comes back to its frame every FRAME_COUNT ticks. */
  lemma NextFrameCycles(i: int)
    requires 0 <= i < FRAME_COUNT
    ensures NextFrame(NextFrame(NextFrame(i))) == i
  {
  }
}

=== FILE: pipes.dfy ===
/** Pipe obstacles: creating a bottom/top pair, moving and pruning the pipe
    list, and the pairing invariant the scoring loop relies on. */
module Pipes {
  import opened Rects

  /** The pipe image is scaled to 70 by HEIGHT (main.py:30). */
  const PIPE_WIDTH: nat := 70
  const PIPE_HEIGHT: nat := 600
  /** Vertical clearance between the two pipes of a pair (main.py:64). */
  const PIPE_GAP: int := 170
  /** Horizontal distance a pipe moves left per play tick (main.py:74). */
  const PIPE_SPEED: int := 4
  /** Horizontal centre of a freshly created pair (main.py:68-69). */
  const SPAWN_X: int := WIDTH + 100
  /** Left edge of a freshly created pipe: SPAWN_X - PIPE_WIDTH / 2. */
  const SPAWN_LEFT: int := 465

  /** The heights `random.choice` picks from (main.py:63). */
  type PipeHeight = h: int | h == 250 || h == 300 || h == 350 witness 250

  /** One pipe rectangle of the pipe list. `passed` stands for membership of
      this pipe in the source's `passed_pipes` list; only bottom pipes are
      ever marked. */
  datatype Pipe = Pipe(rect: Rect, passed: bool)

  datatype PipePair = PipePair(bottom: Rect, top: Rect)

  /** `create_pipe` with the random height given as a parameter. */
  function CreatePipe(height: PipeHeight): (pair: PipePair)
    ensures pair.bottom.w == PIPE_WIDTH && pair.top.w == PIPE_WIDTH
    ensures pair.bottom.h == PIPE_HEIGHT && pair.top.h == PIPE_HEIGHT
    ensures pair.bottom.CenterX() == SPAWN_X && pair.top.CenterX() == SPAWN_X
    ensures pair.bottom.left == SPAWN_LEFT && pair.top.left == SPAWN_LEFT
    ensures pair.bottom.top == height
    ensures pair.top.Bottom() == height - PIPE_GAP
  {
    PipePair(FromMidTop(PIPE_WIDTH, PIPE_HEIGHT, SPAWN_X, height),
             FromMidBottom(PIPE_WIDTH, PIPE_HEIGHT, SPAWN_X, height - PIPE_GAP))
  }

  /** `pipe_list.extend(create_pipe())`: bottom first, then top, both not yet
      passed. */
  function Spawn(pipes: seq<Pipe>, height: PipeHeight): (r: seq<Pipe>)
    ensures |r| == |pipes| + 2 && r[..|pipes|] == pipes
    ensures IsPair(r[|pipes|].rect, r[|pipes| + 1].rect)
    ensures r[|pipes|].rect.top == height && r[|pipes|].rect.left == SPAWN_LEFT
    ensures !r[|pipes|].passed && !r[|pipes| + 1].passed
  {
    var pair := CreatePipe(height);
    pipes + [Pipe(pair.bottom, false), Pipe(pair.top, false)]
  }

  /** `p.centerx -= 4` on one pipe. */
  function Advance(p: Pipe): (q: Pipe)
    ensures q.rect == p.rect.(left := p.rect.left - PIPE_SPEED)
    ensures q.passed == p.passed
  {
    p.(rect := MoveCenterX(p.rect, p.rect.CenterX() - PIPE_SPEED))
  }

  /** The pipe one move earlier: Advance undone. */
  function Retreat(q: Pipe): (p: Pipe)
    ensures Advance(p) == q
  {
    q.(rect := q.rect.(left := q.rect.left + PIPE_SPEED))
  }

  /** A moved pipe stays in the list while some of it is right of x = 0. */
  predicate OnScreen(p: Pipe)
  {
    p.rect.Right() > 0
  }

  /** `move_pipes`: every pipe moves left, then those wholly off the left
      edge are dropped. */
  function MovePipes(pipes: seq<Pipe>): (moved: seq<Pipe>)
    ensures |moved| <= |pipes|
    ensures forall j :: 0 <= j < |moved| ==> OnScreen(moved[j])
  {
    if |pipes| == 0 then []
    else
      var p := Advance(pipes[0]);
      (if OnScreen(p) then [p] else []) + MovePipes(pipes[1..])
  }

  /** `move_pipes` keeps exactly the moved pipes still on screen: every
      pipe it returns is some input pipe moved, and every input pipe that is
      still on screen once moved is returned. */
  lemma {:induction false} MovePipesSelects(pipes: seq<Pipe>)
    ensures forall q :: q in MovePipes(pipes) ==> Retreat(q) in pipes
    ensures forall i :: 0 <= i < |pipes| && OnScreen(Advance(pipes[i])) ==>
              Advance(pipes[i]) in MovePipes(pipes)
    decreases |pipes|
  {
    if |pipes| > 0 {
      MovePipesSelects(pipes[1..]);
      var p := Advance(pipes[0]);
      assert MovePipes(pipes) == (if OnScreen(p) then [p] else []) + MovePipes(pipes[1..]);
      forall i | 1 <= i < |pipes|
        ensures pipes[i] == pipes[1..][i - 1]
      {
      }
    }
  }

  /** A bottom pipe and the top pipe created with it: same column, sizes of
      the pipe image, and exactly PIPE_GAP between them. */
  predicate IsPair(bottom: Rect, top: Rect)
  {
    && bottom.left == top.left
    && bottom.w == PIPE_WIDTH && top.w == PIPE_WIDTH
    && bottom.h == PIPE_HEIGHT && top.h == PIPE_HEIGHT
    && (bottom.top == 250 || bottom.top == 300 || bottom.top == 350)
    && bottom.top - top.Bottom() == PIPE_GAP
  }

  /** The pipe list is a sequence of bottom/top pairs, bottom first, so the
      bottom pipes sit exactly at the even indices. */
  ghost predicate WellPaired(pipes: seq<Pipe>)
    decreases |pipes|
  {
    || |pipes| == 0
    || (|pipes| >= 2 && IsPair(pipes[0].rect, pipes[1].rect) && WellPaired(pipes[2..]))
  }

  /** The classification `draw_pipes` uses (main.py:79): a pipe reaching the
      bottom of the window is drawn upright, as a bottom pipe. */
  predicate IsBottomPipe(r: Rect)
  {
    r.Bottom() >= HEIGHT
  }

  /** Pipes in spawn order: left edges never decrease along the list, and no
      pipe is right of where pipes are created. */
  ghost predicate InSpawnOrder(pipes: seq<Pipe>)
  {
    && (forall i, j :: 0 <= i < j < |pipes| ==> pipes[i].rect.left <= pipes[j].rect.left)
    && (forall i :: 0 <= i < |pipes| ==> pipes[i].rect.left <= SPAWN_LEFT)
  }

  /** A created pair is a pair in the sense of IsPair. */
  lemma CreatePipeIsPair(height: PipeHeight)
    ensures IsPair(CreatePipe(height).bottom, CreatePipe(height).top)
    ensures CreatePipe(height).bottom.top - CreatePipe(height).top.Bottom() == PIPE_GAP
  {
  }

  /** Appending a created pair keeps the list paired. */
  lemma {:induction false} SpawnKeepsPaired(pipes: seq<Pipe>, height: PipeHeight)
    requires WellPaired(pipes)
    ensures WellPaired(Spawn(pipes, height))
    ensures |Spawn(pipes, height)| == |pipes| + 2
    decreases |pipes|
  {
    var pair := CreatePipe(height);
    var tail := [Pipe(pair.bottom, false), Pipe(pair.top, false)];
    if |pipes| == 0 {
      assert Spawn(pipes, height) == tail;
      assert WellPaired(tail[2..]);
    } else {
      SpawnKeepsPaired(pipes[2..], height);
      assert Spawn(pipes, height)[2..] == Spawn(pipes[2..], height);
    }
  }

  /** Moving a list is moving its parts: move_pipes never reorders. */
  lemma {:induction false} MovePipesDistributes(a: seq<Pipe>, b: seq<Pipe>)
    ensures MovePipes(a + b) == MovePipes(a) + MovePipes(b)
    decreases |a|
  {
    if |a| == 0 {
      assert a + b == b;
    } else {
      assert (a + b)[1..] == a[1..] + b;
      MovePipesDistributes(a[1..], b);
    }
  }

  /** Both pipes of a pair share a column, so they are kept or dropped
      together and the list stays paired. */
  lemma {:induction false} MovePipesKeepsPaired(pipes: seq<Pipe>)
    requires WellPaired(pipes)
    ensures WellPaired(MovePipes(pipes))
    decreases |pipes|
  {
    if |pipes| > 0 {
      MovePipesKeepsPaired(pipes[2..]);
      MovePipesPair(pipes);
      var b := Advance(pipes[0]);
      var t := Advance(pipes[1]);
      assert IsPair(b.rect, t.rect);
      if OnScreen(b) {
        var moved := MovePipes(pipes);
        assert moved[0] == b && moved[1] == t;
        assert moved[2..] == MovePipes(pipes[2..]);
      } else {
        assert MovePipes(pipes) == MovePipes(pipes[2..]);
      }
    }
  }

  /** A pair sharing a column is kept or dropped as a whole. */
  lemma MovePipesPair(pipes: seq<Pipe>)
    requires |pipes| >= 2
    requires pipes[0].rect.left == pipes[1].rect.left && pipes[0].rect.w == pipes[1].rect.w
    ensures MovePipes(pipes) ==
              (if OnScreen(Advance(pipes[0])) then [Advance(pipes[0]), Advance(pipes[1])] else [])
              + MovePipes(pipes[2..])
  {
    var t := Advance(pipes[1]);
    assert pipes[1..][1..] == pipes[2..];
    assert MovePipes(pipes[1..]) == (if OnScreen(t) then [t] else []) + MovePipes(pipes[2..]);
  }

  /** In a paired list a pipe is a bottom pipe, by the test `draw_pipes`
      uses, exactly when its index is even: `pipe_list[::2]` visits the
      bottom pipes and nothing else. */
  lemma {:induction false} BottomsAtEvenIndices(pipes: seq<Pipe>)
    requires WellPaired(pipes)
    ensures forall i :: 0 <= i < |pipes| ==> (IsBottomPipe(pipes[i].rect) <==> i % 2 == 0)
    decreases |pipes|
  {
    if |pipes| > 0 {
      BottomsAtEvenIndices(pipes[2..]);
      forall i | 2 <= i < |pipes|
        ensures IsBottomPipe(pipes[i].rect) <==> i % 2 == 0
      {
        assert pipes[i] == pipes[2..][i - 2];
      }
    }
  }

  /** Moving keeps spawn order and the spawn bound. */
  lemma {:induction false} MovePipesKeepsOrder(pipes: seq<Pipe>)
    requires InSpawnOrder(pipes)
    ensures InSpawnOrder(MovePipes(pipes))
    decreases |pipes|
  {
    if |pipes| > 0 {
      MovePipesKeepsOrder(pipes[1..]);
      MovePipesSelects(pipes[1..]);
      var rest := MovePipes(pipes[1..]);
      var p := Advance(pipes[0]);
      forall j | 0 <= j < |rest|
        ensures p.rect.left <= rest[j].rect.left
      {
        var r := Retreat(rest[j]);
        assert r in pipes[1..];
        var i :| 0 <= i < |pipes[1..]| && pipes[1..][i] == r;
        assert pipes[i + 1] == r;
      }
      assert MovePipes(pipes) == (if OnScreen(p) then [p] else []) + rest;
    }
  }

  /** A new pair is created at the right-most column, so spawning keeps
      spawn order. */
  lemma SpawnKeepsOrder(pipes: seq<Pipe>, height: PipeHeight)
    requires InSpawnOrder(pipes)
    ensures InSpawnOrder(Spawn(pipes, height))
  {
  }

  /** Moving a pipe list `n` times, as `n` play ticks do. */
  function MoveTimes(pipes: seq<Pipe>, n: nat): seq<Pipe>
    decreases n
  {
    if n == 0 then pipes else MoveTimes(MovePipes(pipes), n - 1)
  }

  /** A pair, `n` columns of PIPE_SPEED left of where it was created. */
  function PairAfter(height: PipeHeight, n: nat): seq<Pipe>
  {
    var pair := CreatePipe(height);
    [Pipe(pair.bottom.(left := SPAWN_LEFT - PIPE_SPEED * n), false),
     Pipe(pair.top.(left := SPAWN_LEFT - PIPE_SPEED * n), false)]
  }

  /** A created pair survives 133 moves and is dropped on the 134th, when its
      right edge reaches x = 0; once gone it stays gone. */
  lemma PairLifetime(height: PipeHeight, n: nat)
    ensures n <= 133 ==> MoveTimes(PairAfter(height, 0), n) == PairAfter(height, n)
    ensures n > 133 ==> MoveTimes(PairAfter(height, 0), n) == []
  {
    PairLifetimeFrom(height, 0, n);
  }

  /** PairLifetime, for a pair already `k` columns in. */
  lemma {:induction false} PairLifetimeFrom(height: PipeHeight, k: nat, n: nat)
    requires k <= 133
    ensures k + n <= 133 ==> MoveTimes(PairAfter(height, k), n) == PairAfter(height, k + n)
    ensures k + n > 133 ==> MoveTimes(PairAfter(height, k), n) == []
    decreases n
  {
    if n > 0 {
      MoveTimesFirst(PairAfter(height, k), n);
      MovePairAfter(height, k);
      if k < 133 {
        PairLifetimeFrom(height, k + 1, n - 1);
      } else {
        EmptyStaysEmpty(n - 1);
      }
    }
  }

  /** `n` moves are one move followed by the other `n - 1`. */
  lemma MoveTimesFirst(pipes: seq<Pipe>, n: nat)
    requires n > 0
    ensures MoveTimes(pipes, n) == MoveTimes(MovePipes(pipes), n - 1)
  {
  }

  /** Nothing comes back once the list is empty. */
  lemma {:induction false} EmptyStaysEmpty(n: nat)
    ensures MoveTimes([], n) == []
    decreases n
  {
    if n > 0 {
      EmptyStaysEmpty(n - 1);
    }
  }

  /** One move of a pair `n` columns in. */
  lemma MovePairAfter(height: PipeHeight, n: nat)
    requires n <= 133
    ensures n < 133 ==> MovePipes(PairAfter(height, n)) == PairAfter(height, n + 1)
    ensures n == 133 ==> MovePipes(PairAfter(height, n)) == []
  {
    var ps := PairAfter(height, n);
    assert ps[1..] == [ps[1]];
    assert ps[1..][1..] == [];
  }
}

=== FILE: rects.dfy ===
/** Integer rectangles with the derived edges, centres and setters of pygame's
    Rect, and the overlap test `colliderect`. Screen constants live here too,
    because every other module measures against them. */
module Rects {

  /** Window size in pixels (main.py:10). */
  const WIDTH: int := 400
  const HEIGHT: int := 600

  /** A rectangle as pygame stores it: top-left corner plus a non-negative
      size. The derived centres halve a non-negative size, so pygame's C
      integer division and Dafny's `/` agree there. */
  datatype Rect = Rect(left: int, top: int, w: nat, h: nat)
  {
    function Right(): int { left + w }
    function Bottom(): int { top + h }
    function CenterX(): int { left + w / 2 }
    function CenterY(): int { top + h / 2 }
  }

  /** `r.centerx = x`: a horizontal move that keeps the size. */
  function MoveCenterX(r: Rect, x: int): (r': Rect)
    ensures r'.CenterX() == x
    ensures r'.top == r.top && r'.w == r.w && r'.h == r.h
  {
    r.(left := x - r.w / 2)
  }

  /** `r.centery = y`: a vertical move that keeps the size. */
  function MoveCenterY(r: Rect, y: int): (r': Rect)
    ensures r'.CenterY() == y
    ensures r'.left == r.left && r'.w == r.w && r'.h == r.h
  {
    r.(top := y - r.h / 2)
  }

  /** `get_rect(center=(x, y))` of a `w` by `h` image, and `r.center = (x, y)`. */
  function FromCenter(w: nat, h: nat, x: int, y: int): (r: Rect)
    ensures r.CenterX() == x && r.CenterY() == y
    ensures r.w == w && r.h == h
  {
    Rect(x - w / 2, y - h / 2, w, h)
  }

  /** `get_rect(midtop=(x, y))` of a `w` by `h` image. */
  function FromMidTop(w: nat, h: nat, x: int, y: int): (r: Rect)
    ensures r.CenterX() == x && r.top == y
    ensures r.w == w && r.h == h
  {
    Rect(x - w / 2, y, w, h)
  }

  /** `get_rect(midbottom=(x, y))` of a `w` by `h` image. */
  function FromMidBottom(w: nat, h: nat, x: int, y: int): (r: Rect)
    ensures r.CenterX() == x && r.Bottom() == y
    ensures r.w == w && r.h == h
  {
    Rect(x - w / 2, y - h, w, h)
  }

  /** `a.colliderect(b)`: the two rectangles overlap strictly on both axes;
      rectangles that only touch along an edge do not collide. Between
      rectangles of positive size that is sharing a pixel. */
  function Collides(a: Rect, b: Rect): (c: bool)
    ensures a.w > 0 && a.h > 0 && b.w > 0 && b.h > 0 ==>
              (c <==> exists x, y :: Covers(a, x, y) && Covers(b, x, y))
  {
    var overlap := && a.left < b.Right() && b.left < a.Right()
                   && a.top < b.Bottom() && b.top < a.Bottom();
    var x := if a.left < b.left then b.left else a.left;
    var y := if a.top < b.top then b.top else a.top;
    assert a.w > 0 && a.h > 0 && b.w > 0 && b.h > 0 && overlap ==>
      Covers(a, x, y) && Covers(b, x, y);
    overlap
  }

  /** The rectangle covers the unit pixel whose top-left corner is (x, y). */
  predicate Covers(r: Rect, x: int, y: int)
  {
    r.left <= x < r.Right() && r.top <= y < r.Bottom()
  }
}

=== FILE: scenarios.dfy ===
/** Concrete runs of the main loop, among them the two halves of the
    high-score finding. */
module Scenarios {
  import opened Rects
  import opened Pipes
  import opened Kinematics
  import opened Buttons
  import opened Scoring
  import Ground
  import opened GameLoop
  import opened GameProperties

  /** A mouse away from every button. */
  const AWAY: Mouse := Mouse(0, 0, false)

  /** SPACE on the splash screen opens the menu; SPACE there starts play with
      nothing on screen and no points; in that same frame the bird takes its
      first tick, which moves it by int(0.4) = 0; a spawn tick in the next
      frame puts exactly one pair on screen, already moved once. No frame of
      the run crashes, so the loop as written takes the same three frames. */
  lemma StartScenario(g0: Game, height: PipeHeight)
    requires g0 == Initial()
    ensures var o1 := Frame(g0, Input([KeyDown(true)], AWAY));
      o1.Running? && ScreenOf(o1.game) == MenuScreen
    ensures var g1 := Frame(g0, Input([KeyDown(true)], AWAY)).game;
      var o2 := Frame(g1, Input([KeyDown(true)], AWAY));
      && o2.Running? && ScreenOf(o2.game) == PlayScreen
      && o2.game.score == 0 && o2.game.pipes == []
      && o2.game.bird.rect.CenterY() == BIRD_Y && o2.game.bird.velocity == GRAVITY
    ensures var g1 := Frame(g0, Input([KeyDown(true)], AWAY)).game;
      var g2 := Frame(g1, Input([KeyDown(true)], AWAY)).game;
      var o3 := Frame(g2, Input([SpawnTick(height)], AWAY));
      && o3.Running? && ScreenOf(o3.game) == PlayScreen
      && o3.game.pipes == PairAfter(height, 1)
    ensures var g1 := Frame(g0, Input([KeyDown(true)], AWAY)).game;
      var g2 := Frame(g1, Input([KeyDown(true)], AWAY)).game;
      && FrameAsWritten(g0, Input([KeyDown(true)], AWAY)) == Frame(g0, Input([KeyDown(true)], AWAY))
      && FrameAsWritten(g1, Input([KeyDown(true)], AWAY)) == Frame(g1, Input([KeyDown(true)], AWAY))
      && FrameAsWritten(g2, Input([SpawnTick(height)], AWAY)) == Frame(g2, Input([SpawnTick(height)], AWAY))
  {
    var g0' := HandleEvents(g0, [KeyDown(true)]).game;
    assert g0' == g0.(splash := false, menu := true);
    FramesAgree(g0, Input([KeyDown(true)], AWAY));
    var g1 := Frame(g0, Input([KeyDown(true)], AWAY)).game;
    assert g1 == g0'.(groundX := Ground.Scroll(g0.groundX));
    SpaceStartsRun(g1);
    var g2 := Frame(g1, Input([KeyDown(true)], AWAY)).game;
    FirstPair(g2, height);
  }

  /** SPACE on the menu or the game-over screen starts a new run in both
      versions of the loop: zero points, nothing on screen, the bird
      centred after its first tick, the high score as it was. */
  lemma SpaceStartsRun(g: Game)
    requires ScreenOf(g) == MenuScreen || ScreenOf(g) == GameOverScreen
    requires g.bird.rect.w == BIRD_W && g.bird.rect.h == BIRD_H
    ensures FrameAsWritten(g, Input([KeyDown(true)], AWAY)) == Frame(g, Input([KeyDown(true)], AWAY))
    ensures var o := Frame(g, Input([KeyDown(true)], AWAY));
      && o.Running? && ScreenOf(o.game) == PlayScreen
      && o.game.score == 0 && o.game.pipes == [] && o.game.highScore == g.highScore
      && o.game.bird.rect == FromCenter(BIRD_W, BIRD_H, BIRD_X, BIRD_Y)
      && o.game.bird.velocity == GRAVITY
  {
    var g' := HandleEvents(g, [KeyDown(true)]).game;
    if ScreenOf(g) == MenuScreen {
      assert g' == Reset(g.(menu := false, active := true));
    } else {
      assert g' == Reset(g.(active := true));
    }
    var t := PlayTick(g');
    assert t.bird.rect.top == BIRD_Y - BIRD_H / 2;
    assert t.active;
  }

  /** The first spawn tick of a run puts one pair on screen, which moves
      once in the same frame and is far from the bird, in both loops. */
  lemma FirstPair(g: Game, height: PipeHeight)
    requires ScreenOf(g) == PlayScreen && g.pipes == []
    requires g.bird.rect == FromCenter(BIRD_W, BIRD_H, BIRD_X, BIRD_Y) && g.bird.velocity == GRAVITY
    ensures var o := Frame(g, Input([SpawnTick(height)], AWAY));
      && o.Running? && ScreenOf(o.game) == PlayScreen
      && o.game.pipes == PairAfter(height, 1)
    ensures FrameAsWritten(g, Input([SpawnTick(height)], AWAY)) == Frame(g, Input([SpawnTick(height)], AWAY))
  {
    var g' := g.(pipes := PairAfter(height, 0));
    SpawnIsPairAfter(height);
    assert HandleEvent(g, SpawnTick(height)) == Running(g');
    assert HandleEvents(g, [SpawnTick(height)]) == HandleEvents(g', []);
    FirstPairTick(g', height);
    assert ScreenUpdate(g', AWAY) == Running(PlayTick(g'));
    FramesAgree(g, Input([SpawnTick(height)], AWAY));
  }

  /** A freshly spawned pair is the pair zero columns in. */
  lemma SpawnIsPairAfter(height: PipeHeight)
    ensures Spawn([], height) == PairAfter(height, 0)
  {
    var pair := CreatePipe(height);
    assert pair.bottom.(left := SPAWN_LEFT) == pair.bottom;
    assert pair.top.(left := SPAWN_LEFT) == pair.top;
  }

  /** The play tick after that spawn: the pair moves one column and the bird,
      falling 0 pixels, is clear of it. */
  lemma FirstPairTick(g: Game, height: PipeHeight)
    requires g.pipes == PairAfter(height, 0)
    requires g.bird.rect == FromCenter(BIRD_W, BIRD_H, BIRD_X, BIRD_Y) && g.bird.velocity == GRAVITY
    ensures PlayTick(g).active && PlayTick(g).pipes == PairAfter(height, 1)
  {
    MovePairAfter(height, 0);
    var t := PlayTick(g);
    assert t.bird.rect == g.bird.rect;
    var moved := MovePipes(g.pipes);
    assert moved == PairAfter(height, 1);
    assert !Collides(t.bird.rect, moved[0].rect) && !Collides(t.bird.rect, moved[1].rect);
    assert t.active;
    ScorePassMarks(moved, t.bird.rect.CenterX());
    assert ScorePass(moved, t.bird.rect.CenterX()).pipes == moved;
  }

  /** A press held over the top ten pixels of the Continue button for two
      frames goes on to the Quit button of the menu and ends the process, in
      both loops. */
  lemma HeldPressOnContinueQuits()
    ensures var press := Input([], Mouse(200, 405, true));
      var o1 := Frame(Initial(), press);
      o1.Running? && ScreenOf(o1.game) == MenuScreen && Frame(o1.game, press).Exit?
    ensures var press := Input([], Mouse(200, 405, true));
      var o1 := FrameAsWritten(Initial(), press);
      o1.Running? && ScreenOf(o1.game) == MenuScreen && FrameAsWritten(o1.game, press).Exit?
  {
  }

  /** A run with 5 points and no high score yet, its bird 5 pixels above the
      ground line and falling 6 pixels a tick, no pipe on screen. */
  predicate AboutToCrash(g: Game)
  {
    && FlagsExclusive(g) && ScreenOf(g) == PlayScreen
    && g.bird.rect == FromCenter(BIRD_W, BIRD_H, BIRD_X, 480) && g.bird.velocity == 60
    && g.pipes == [] && g.score == 5 && g.highScore == 0
  }

  /** As written, SPACE in the frame after a collision restarts before the
      game-over screen has recorded the run: a run of 5 points ends with a
      high score of 0. */
  lemma HighScoreLostAsWritten(g0: Game)
    requires AboutToCrash(g0)
    ensures var o1 := FrameAsWritten(g0, Input([], AWAY));
      && o1.Running? && ScreenOf(o1.game) == GameOverScreen
      && o1.game.score == 5 && o1.game.highScore == 0
    ensures var g1 := FrameAsWritten(g0, Input([], AWAY)).game;
      var o2 := FrameAsWritten(g1, Input([KeyDown(true)], AWAY));
      && o2.Running? && ScreenOf(o2.game) == PlayScreen
      && o2.game.score == 0 && o2.game.highScore == 0
  {
    var g0' := PlayTick(g0);
    assert g0'.bird.rect.Bottom() == 501;
    assert !g0'.active && g0'.score == 5;
    var g1 := FrameAsWritten(g0, Input([], AWAY)).game;
    assert g1 == g0'.(groundX := Ground.Scroll(g0.groundX));
    SpaceStartsRun(g1);
  }

  /** With the score recorded in the collision frame the same inputs leave a
      high score of 5. */
  lemma HighScoreKeptCorrected(g0: Game)
    requires AboutToCrash(g0)
    ensures var g1 := Frame(g0, Input([], AWAY)).game;
      var o2 := Frame(g1, Input([KeyDown(true)], AWAY));
      o2.Running? && o2.game.highScore == 5
  {
    var g0' := PlayTick(g0);
    assert g0'.bird.rect.Bottom() == 501;
    assert !g0'.active && g0'.score == 5;
    var r := RecordHighScore(g0');
    assert r.highScore == 5;
    assert ScreenUpdate(g0, AWAY) == Running(r);
    var g1 := Frame(g0, Input([], AWAY)).game;
    assert g1 == r.(groundX := Ground.Scroll(g0.groundX));
    SpaceStartsRun(g1);
  }
}

=== FILE: scoring.dfy ===
/** The scoring loop of main.py:228-232: every bottom pipe whose centre has
    moved left of the bird's centre scores, unless its rectangle is already
    in `passed_pipes`. Python's `in` compares rectangles by value, so a pipe
    is also passed when another pipe with the same rectangle was. */
module Scoring {
  import opened Rects
  import opened Pipes

  /** The marked pipes and the points gained by one pass. */
  datatype Scored = Scored(pipes: seq<Pipe>, gained: nat)

  /** The rectangles `p not in passed_pipes` can match: those of the marked
      pipes on the list. */
  function MarkedRects(pipes: seq<Pipe>): (m: set<Rect>)
    ensures MarksSeen(pipes, m)
  {
    set i | 0 <= i < |pipes| && pipes[i].passed :: pipes[i].rect
  }

  /** Every marked pipe's rectangle is among `seen`. */
  predicate MarksSeen(pipes: seq<Pipe>, seen: set<Rect>)
  {
    forall j :: 0 <= j < |pipes| && pipes[j].passed ==> pipes[j].rect in seen
  }

  /** `p.centerx < bird_rect.centerx and p not in passed_pipes`, with `seen`
      the rectangles in `passed_pipes`. */
  predicate Scores(p: Pipe, birdX: int, seen: set<Rect>)
  {
    p.rect.CenterX() < birdX && p.rect !in seen
  }

  /** `passed_pipes` after the loop has visited `p`. */
  function NextSeen(p: Pipe, birdX: int, seen: set<Rect>): set<Rect>
  {
    if Scores(p, birdX, seen) then seen + {p.rect} else seen
  }

  /** How many of the pipes visited by `pipe_list[::2]` are marked passed. */
  function PassedCount(pipes: seq<Pipe>): nat
    decreases |pipes|
  {
    if |pipes| == 0 then 0
    else (if pipes[0].passed then 1 else 0) + (if |pipes| < 2 then 0 else PassedCount(pipes[2..]))
  }

  /** The loop from the first pair of `pipes` on, with `seen` the rectangles
      in `passed_pipes` when it gets there. */
  function ScoreWith(pipes: seq<Pipe>, birdX: int, seen: set<Rect>): (r: Scored)
    requires MarksSeen(pipes, seen)
    ensures |r.pipes| == |pipes|
    ensures PassedCount(r.pipes) == PassedCount(pipes) + r.gained
    decreases |pipes|
  {
    if |pipes| == 0 then Scored([], 0)
    else
      var p := pipes[0];
      var scores := Scores(p, birdX, seen);
      var head := p.(passed := p.passed || scores);
      var point := if scores then 1 else 0;
      if |pipes| == 1 then Scored([head], point)
      else
        assert forall j :: 0 <= j < |pipes[2..]| ==> pipes[2..][j] == pipes[j + 2];
        var rest := ScoreWith(pipes[2..], birdX, NextSeen(p, birdX, seen));
        var out := [head, pipes[1]] + rest.pipes;
        assert out[2..] == rest.pipes;
        Scored(out, point + rest.gained)
  }

  /** One run of the scoring loop against a bird centred at `birdX`: the
      marks it adds are the points it gains. */
  function ScorePass(pipes: seq<Pipe>, birdX: int): (r: Scored)
    ensures |r.pipes| == |pipes|
    ensures PassedCount(r.pipes) == PassedCount(pipes) + r.gained
  {
    ScoreWith(pipes, birdX, MarkedRects(pipes))
  }

  /** The pipe at index `i` scores when the loop reaches it: it is visited by
      `pipe_list[::2]`, has moved left of `birdX`, its rectangle is not among
      `seen`, and no pipe visited before it has the same rectangle. */
  predicate EligibleWith(pipes: seq<Pipe>, birdX: int, seen: set<Rect>, i: int)
    requires 0 <= i < |pipes|
  {
    && i % 2 == 0
    && pipes[i].rect.CenterX() < birdX
    && pipes[i].rect !in seen
    && (forall j :: 0 <= j < i && j % 2 == 0 ==> pipes[j].rect != pipes[i].rect)
  }

  /** EligibleWith for a whole pass, which starts from the marked pipes. */
  predicate Eligible(pipes: seq<Pipe>, birdX: int, i: int)
    requires 0 <= i < |pipes|
  {
    EligibleWith(pipes, birdX, MarkedRects(pipes), i)
  }

  /** Eligibility past the first pair is eligibility in the rest of the list,
      once the first bottom pipe has been visited. */
  lemma EligibleShift(pipes: seq<Pipe>, birdX: int, seen: set<Rect>, i: int)
    requires 2 <= i < |pipes|
    ensures EligibleWith(pipes, birdX, seen, i)
      <==> EligibleWith(pipes[2..], birdX, NextSeen(pipes[0], birdX, seen), i - 2)
  {
  }

  /** What the loop does to each pipe, from any point on. */
  lemma {:induction false} ScoreWithMarks(pipes: seq<Pipe>, birdX: int, seen: set<Rect>)
    requires MarksSeen(pipes, seen)
    ensures var out := ScoreWith(pipes, birdX, seen).pipes;
      && (forall i :: 0 <= i < |pipes| ==> out[i].rect == pipes[i].rect)
      && (forall i :: 0 <= i < |pipes| && i % 2 == 1 ==> out[i] == pipes[i])
      && (forall i :: 0 <= i < |pipes| && i % 2 == 0 ==>
            out[i].passed == (pipes[i].passed || EligibleWith(pipes, birdX, seen, i)))
    decreases |pipes|
  {
    if |pipes| >= 2 {
      var seen' := NextSeen(pipes[0], birdX, seen);
      var tail := pipes[2..];
      assert forall j :: 0 <= j < |tail| ==> tail[j] == pipes[j + 2];
      ScoreWithMarks(tail, birdX, seen');
      var out := ScoreWith(pipes, birdX, seen).pipes;
      var rest := ScoreWith(tail, birdX, seen').pipes;
      assert out[2..] == rest;
      forall i | 2 <= i < |pipes|
        ensures out[i] == rest[i - 2] && pipes[i] == tail[i - 2] && (i - 2) % 2 == i % 2
      {
      }
      forall i | 2 <= i < |pipes| && i % 2 == 0
        ensures out[i].passed == (pipes[i].passed || EligibleWith(pipes, birdX, seen, i))
      {
        EligibleShift(pipes, birdX, seen, i);
      }
    }
  }

  /** The pass moves nothing and touches only the marks of the bottom pipes:
      a bottom pipe ends up marked exactly when it was marked already or it
      scores in this pass. */
  lemma ScorePassMarks(pipes: seq<Pipe>, birdX: int)
    ensures var out := ScorePass(pipes, birdX).pipes;
      && (forall i :: 0 <= i < |pipes| ==> out[i].rect == pipes[i].rect)
      && (forall i :: 0 <= i < |pipes| && i % 2 == 1 ==> out[i] == pipes[i])
      && (forall i :: 0 <= i < |pipes| && i % 2 == 0 ==>
            out[i].passed == (pipes[i].passed || Eligible(pipes, birdX, i)))
  {
    ScoreWithMarks(pipes, birdX, MarkedRects(pipes));
  }

  /** After a pass, every bottom pipe left of the bird has its rectangle in
      `passed_pipes`: it was counted now, or it matched a pipe counted
      earlier. */
  lemma {:induction false} LeftOfBirdIsPassed(pipes: seq<Pipe>, birdX: int, i: int)
    requires 0 <= i < |pipes| && i % 2 == 0 && pipes[i].rect.CenterX() < birdX
    ensures pipes[i].rect in MarkedRects(ScorePass(pipes, birdX).pipes)
    decreases i
  {
    var out := ScorePass(pipes, birdX).pipes;
    ScorePassMarks(pipes, birdX);
    var r := pipes[i].rect;
    if r in MarkedRects(pipes) {
      var k :| 0 <= k < |pipes| && pipes[k].passed && pipes[k].rect == r;
      assert out[k].passed && out[k].rect == r;
    } else if exists j :: 0 <= j < i && j % 2 == 0 && pipes[j].rect == r {
      var j :| 0 <= j < i && j % 2 == 0 && pipes[j].rect == r;
      LeftOfBirdIsPassed(pipes, birdX, j);
    } else {
      assert Eligible(pipes, birdX, i);
      assert out[i].passed && out[i].rect == r;
    }
  }

  /** Running the loop again right away scores nothing and marks nothing. */
  lemma ScorePassIdempotent(pipes: seq<Pipe>, birdX: int)
    ensures ScorePass(ScorePass(pipes, birdX).pipes, birdX).gained == 0
    ensures ScorePass(ScorePass(pipes, birdX).pipes, birdX).pipes == ScorePass(pipes, birdX).pipes
  {
    var once := ScorePass(pipes, birdX).pipes;
    var twice := ScorePass(once, birdX).pipes;
    ScorePassMarks(pipes, birdX);
    ScorePassMarks(once, birdX);
    forall i | 0 <= i < |once| && i % 2 == 0
      ensures !Eligible(once, birdX, i)
    {
      if once[i].rect.CenterX() < birdX {
        LeftOfBirdIsPassed(pipes, birdX, i);
      }
    }
    assert twice == once;
  }

  /** How many of the first `n` pipes score, counted index by index. */
  function CountWith(pipes: seq<Pipe>, birdX: int, seen: set<Rect>, n: nat): nat
    requires n <= |pipes|
    decreases n
  {
    if n == 0 then 0
    else CountWith(pipes, birdX, seen, n - 1) + (if EligibleWith(pipes, birdX, seen, n - 1) then 1 else 0)
  }

  /** CountWith for a whole pass. */
  function CountEligible(pipes: seq<Pipe>, birdX: int, n: nat): nat
    requires n <= |pipes|
  {
    CountWith(pipes, birdX, MarkedRects(pipes), n)
  }

  /** Counting past the first pair is counting the rest of the list. */
  lemma {:induction false} CountWithDropPair(pipes: seq<Pipe>, birdX: int, seen: set<Rect>, n: nat)
    requires 2 <= n <= |pipes|
    ensures CountWith(pipes, birdX, seen, n) ==
              (if EligibleWith(pipes, birdX, seen, 0) then 1 else 0)
              + CountWith(pipes[2..], birdX, NextSeen(pipes[0], birdX, seen), n - 2)
    decreases n
  {
    if n > 2 {
      CountWithDropPair(pipes, birdX, seen, n - 1);
      EligibleShift(pipes, birdX, seen, n - 1);
    }
  }

  /** The loop gains one point per pipe that scores, from any point on. */
  lemma {:induction false} ScoreWithCounts(pipes: seq<Pipe>, birdX: int, seen: set<Rect>)
    requires MarksSeen(pipes, seen)
    ensures ScoreWith(pipes, birdX, seen).gained == CountWith(pipes, birdX, seen, |pipes|)
    decreases |pipes|
  {
    if |pipes| >= 2 {
      var tail := pipes[2..];
      assert forall j :: 0 <= j < |tail| ==> tail[j] == pipes[j + 2];
      ScoreWithCounts(tail, birdX, NextSeen(pipes[0], birdX, seen));
      CountWithDropPair(pipes, birdX, seen, |pipes|);
    }
  }

  /** A pass gains exactly one point per bottom pipe left of the bird whose
      rectangle is not yet in `passed_pipes` when the loop reaches it. */
  lemma ScorePassCountsEligible(pipes: seq<Pipe>, birdX: int)
    ensures ScorePass(pipes, birdX).gained == CountEligible(pipes, birdX, |pipes|)
  {
    ScoreWithCounts(pipes, birdX, MarkedRects(pipes));
  }

  /** Two pairs with the same rectangles, both left of the bird and not yet
      passed, score one point, not two: the second bottom pipe is found in
      `passed_pipes` by value. */
  lemma EqualPairsScoreOnce(b: Pipe, t: Pipe, birdX: int)
    requires b.rect.CenterX() < birdX && !b.passed && !t.passed
    ensures ScorePass([b, t, b, t], birdX).gained == 1
  {
    var ps := [b, t, b, t];
    assert MarkedRects(ps) == {};
    assert ps[2..] == [b, t];
    assert ps[2..][2..] == [];
    var seen := NextSeen(b, birdX, {});
    assert seen == {b.rect};
    assert !Scores(b, birdX, seen);
    assert ScoreWith([b, t], birdX, seen).gained == 0;
  }
}
